=== FILE: README.md ===
# VLAN bridge reconciler, modelled in Dafny

This project models `VNMMAD::VLANDriver` of OpenNebula's virtual network
drivers (`src/vnm_mad/remotes/lib/vlan.rb`). The driver keeps a hypervisor's
Linux bridges and VLAN tagging devices in line with a VM's NICs. It has three
entry points:

- **activate** creates each NIC's bridge if needed, sets up the transparent
  proxy, optionally checks the bridge for devices on another VLAN, and
  creates and attaches the tagging device `<phydev>.<vlan_id>` unless the
  bridge already has it.
- **deactivate** tears down the tagging device and the bridge once no
  other VM's device ("guest") is left on the bridge.
- **update** applies a live change of `vlan_id`, `phydev` or `mtu` to the
  first eligible NIC of a network.

Each entry point takes the lock, reads the bridge inventory (bridge name to
member devices), folds a per-NIC step over the NICs in order, and releases the
lock.

The model is a functional state machine:

- `State` holds the in-memory inventory (`map<string, seq<string>>`) and a
  trace of `Event`s: `Lock`, `Unlock`, proxy set-up/teardown, and host
  commands (`Cmd`).
- A per-NIC step returns a `Flow`:
  - `Continue` is Ruby's `next`.
  - `Stop` is a `return` from inside the loop.
  - `Abort` is `exit(-1)`.
- The steps are chained with Dafny's `:-`.
- An `Invocation` records how a call ended (`Returned(value)`, with nil as
  `None`, or `Exited(-1)`), its events, and the final in-memory inventory.

The host is a parameter (`Host`) with two parts:

- `interfaceVlan` stands for the tagging driver's `list_interface_vlan`.
  The base driver's version is `BaseInterfaceVlan`, which always answers nil.
- `fails` says which commands fail.

The code's own `exit(-1)` calls are in `validate_vlan_id` and in the base
`create_vlan_dev`/`delete_vlan_dev` (vlan.rb:85, 93, 245). Ruby's `exit`
raises an exception, so the `ensure` clauses of deactivate and update still
release the lock. activate has no `ensure`, so it does not.

Modules:

- `Options`: optional values.
- `DeviceNaming`: the device namer and its inverse.
- `Inventory`: the bridge map, plus Ruby's `Array#-` as `Without`.
- `HostEffects`: NICs, commands, events, the host and `Flow`.
- `VlanDriver`: the three entry points and their steps.
- `ActivateProofs`, `DeactivateProofs`, `UpdateProofs`: theorems that relate
  several calls.

Behaviour of the code worth knowing:

- A VLAN conflict exits after the proxy has been set up (vlan.rb:54-60) and
  before the tagging device is created (vlan.rb:66). A conflict needs a
  member, so the bridge already existed; `ActivateProofs.ActivateNicVlanCheck`
  shows the proxy set-up is then the exit's only effect.
- When guests remain, deactivate deletes nothing, not even the NIC's own
  tagging device (vlan.rb:136; `DeactivateProofs.GuestKeepsBridgeAndDevice`).
- The inventory keeps ordered lists of members. `Array#-` and `Array#delete`
  drop every occurrence of a name.
- activate keeps the lock on `exit(-1)` (no `ensure` around vlan.rb:41-75).
  The `Activate` contract states this.
- Re-activation is idempotent for the inventory and the host commands.
  It can still exit on the VLAN check: suppose an earlier NIC with the check
  enabled shares its bridge with a later NIC on another VLAN. The second run
  sees the later NIC's device. So a second run is proved to return 0 in two
  cases: when no NIC enables the check
  (`ActivateProofs.ReactivateWithoutCheckSucceeds`), and when no device reports
  a VLAN (`ActivateProofs.ActivateIdempotent`).

Assumptions about collaborators that are not part of this model:

- `create_bridge` (parent driver): if the bridge is absent, it runs one
  command and records the bridge with no members; otherwise it does nothing
  (`VlanDriver.CreateBridge`).
- `list_bridges` is an input: a `Bridges` map for activate, and an optional
  one for deactivate and update, which return 0 when it is nil.
- `process` is the fold over `seq<Nic>`.
- A failing host command ends the process with `exit(-1)`. This covers
  `LocalCommand.run_sh`, the concrete drivers' `create_vlan_dev` and
  `delete_vlan_dev`, and the parent's `create_bridge`. The code for these is
  not part of this model; they could instead exit with another status or
  raise. The `Exited(-1)` outcomes of `Activate`, `Deactivate` and `Update`
  after a failed command rest on this assumption.

## Model

| member | source | states |
|---|---|---|
| DeviceNaming.SplitDevNameInverse | src/vnm_mad/remotes/lib/vlan.rb:223-225 | splitting the generated name `phydev.vlan_id` at its last dot gives back the physical device and the VLAN id |
| DeviceNaming.DevNameInjective | src/vnm_mad/remotes/lib/vlan.rb:223-225 | two (phydev, vlan_id) pairs with the same device name are the same pair, so the name identifies what it was derived from |
| Inventory.Without | src/vnm_mad/remotes/lib/vlan.rb:129-130 | array difference keeps exactly the names that are not dropped |
| Inventory.WithoutKeepsOthers | src/vnm_mad/remotes/lib/vlan.rb:129-130 | a name that is not dropped keeps every one of its occurrences |
| VlanDriver.CreateBridge | src/vnm_mad/remotes/lib/vlan.rb:54 | after creating the bridge the inventory has it, with no members if it was new; an existing bridge is left alone and nothing runs; no other bridge changes; fail-stop: it exits exactly when a command fails, that command being its last event after every earlier one succeeded |
| VlanDriver.FirstConflict | src/vnm_mad/remotes/lib/vlan.rb:232-235 | finds a member reporting a VLAN other than the NIC's exactly when one exists; members reporting none are passed over |
| VlanDriver.ValidateVlanId | src/vnm_mad/remotes/lib/vlan.rb:231-247 | exits exactly when some member of the bridge reports a different VLAN, changing nothing |
| VlanDriver.CreateAndAttach | src/vnm_mad/remotes/lib/vlan.rb:189-199 | creates the device under the NIC's name and attaches it to the bridge without recording it; the inventory is unchanged; on a host where commands succeed these two commands are its only events; fail-stop: it exits exactly when a command fails, that command being its last event after every earlier one succeeded |
| VlanDriver.AddVlanDev | src/vnm_mad/remotes/lib/vlan.rb:65-72 | on success the device is appended to the bridge's members and nothing else in the inventory changes; on failure the inventory is untouched; fail-stop: it exits exactly when a command fails, that command being its last event after every earlier one succeeded |
| VlanDriver.CheckAndAddVlanDev | src/vnm_mad/remotes/lib/vlan.rb:59-72 | the device is in the bridge afterwards unless it exits; it is appended only if it was missing; no other bridge changes; an exit with no new event is the VLAN check of a NIC that enables it; any other exit follows a failed command |
| VlanDriver.ActivateNic | src/vnm_mad/remotes/lib/vlan.rb:45-73 | NICs without phydev are skipped; afterwards the NIC's device is in its bridge; other bridges are untouched and no member is lost; no lock event; an exit follows a failed command, or is the VLAN check right after this NIC's proxy set-up with every command succeeding |
| VlanDriver.ActivateAll | src/vnm_mad/remotes/lib/vlan.rb:45-73 | a completed loop leaves every NIC with a phydev having its device in its bridge, and the inventory only grows; an exit follows a failed command, or is the VLAN check right after the proxy set-up of a NIC that enables it |
| VlanDriver.Activate | src/vnm_mad/remotes/lib/vlan.rb:40-78 | returns 0 or exits; Lock comes first and is not taken again; the lock is released exactly when it returns 0, as the last event, never on exit(-1); a return means every command succeeded; exit(-1) means a command failed as the last event, or every command succeeded and the last event is the proxy set-up of a NIC that enables the VLAN check |
| VlanDriver.Guests | src/vnm_mad/remotes/lib/vlan.rb:129-130 | the guests are the bridge members other than phydev, the tagging device and the `<bridge>b` companion |
| VlanDriver.RemoveVlanDevAndBridge | src/vnm_mad/remotes/lib/vlan.rb:138-146 | on success the bridge leaves the inventory after the device and then the bridge are deleted; a failure keeps every bridge key; fail-stop: it exits exactly when a command fails, that command being its last event after every earlier one succeeded |
| VlanDriver.DeactivateNic | src/vnm_mad/remotes/lib/vlan.rb:109-147 | skips NICs that are not the detached one, have no phydev, or whose bridge is gone; otherwise the bridge is kept or deleted as a whole; fail-stop: it exits exactly when a command fails, that command being its last event after every earlier one succeeded |
| VlanDriver.DeactivateAll | src/vnm_mad/remotes/lib/vlan.rb:109-147 | the loop only removes bridges, and a completed loop leaves the remaining bridges' members as they were; fail-stop: it exits exactly when a command fails, that command being its last event after every earlier one succeeded |
| VlanDriver.Deactivate | src/vnm_mad/remotes/lib/vlan.rb:97-152 | the lock is released on every path including exit(-1); an attached NIC_ALIAS, or a nil inventory, returns 0 with no other effect; exit(-1) exactly when some command fails |
| VlanDriver.SupportedChanges | src/vnm_mad/remotes/lib/vlan.rb:157-159 | the change set keeps exactly the vlan_id, mtu and phydev entries, with their values |
| VlanDriver.Overlay | src/vnm_mad/remotes/lib/vlan.rb:179 | each changed attribute takes its new value and only changed attributes differ; identity, network, bridge and configuration stay; without a vlan_id or phydev change the device name is the NIC's own; with both it is named from the new values; a change set with no supported key leaves the NIC as it was |
| VlanDriver.DeleteIfMember | src/vnm_mad/remotes/lib/vlan.rb:179-184 | deletes the device named from the merged NIC only when the bridge holds it; the inventory is unchanged; fail-stop: it exits exactly when a command fails, that command being its last event after every earlier one succeeded |
| VlanDriver.RecreateVlanDev | src/vnm_mad/remotes/lib/vlan.rb:175-211 | a vlan_id or phydev change always ends the loop and never changes the inventory; fail-stop: it exits exactly when a command fails, that command being its last event after every earlier one succeeded |
| VlanDriver.UpdateNic | src/vnm_mad/remotes/lib/vlan.rb:167-212 | ineligible NICs are skipped; an eligible one ends the loop; the inventory never changes; without a vlan_id or phydev change only the MTU is set; fail-stop: it exits exactly when a command fails, that command being its last event after every earlier one succeeded |
| VlanDriver.UpdateAll | src/vnm_mad/remotes/lib/vlan.rb:167-214 | the loop completes exactly when no NIC is eligible, and then has done nothing; fail-stop: it exits exactly when a command fails, that command being its last event after every earlier one succeeded |
| VlanDriver.UpdateLocked | src/vnm_mad/remotes/lib/vlan.rb:163-217 | inside the lock: it is released as the last event on every path; the inventory is unchanged; 0 exactly when no NIC is eligible, with nothing between the lock and its release; exit(-1) exactly when some command fails; nil once the loop acted on a NIC |
| VlanDriver.Update | src/vnm_mad/remotes/lib/vlan.rb:154-217 | the lock is released on every path; an empty supported change set, or a nil inventory, returns 0 with no other effect; the inventory never changes; 0 exactly when no NIC is eligible; exit(-1) exactly when some command fails; nil when a NIC is eligible and every command succeeds |
| ActivateProofs.ActivateNicKnownDevice | src/vnm_mad/remotes/lib/vlan.rb:62-63 | a device already in the bridge is not created, attached or recorded again; only the proxy is set up |
| ActivateProofs.ActivateNicNewDevice | src/vnm_mad/remotes/lib/vlan.rb:62-72 | on an existing bridge without the device and with no conflict: set up proxy, create device, attach it, and append it once to the bridge's members |
| ActivateProofs.ActivateNicFreshBridge | src/vnm_mad/remotes/lib/vlan.rb:53-72 | on a new bridge: create bridge, set up proxy, create device, attach it, and record the bridge with that one member |
| ActivateProofs.ActivateNicVlanCheck | src/vnm_mad/remotes/lib/vlan.rb:54-60 | activation exits exactly when the check is enabled and a member reports another VLAN; the proxy set-up is then the only effect: no device is created and the inventory is unchanged |
| ActivateProofs.ReactivateIsQuiet | src/vnm_mad/remotes/lib/vlan.rb:45-73 | over an inventory that already holds every NIC's device, the loop changes nothing and only sets up proxies |
| ActivateProofs.ReactivateWithoutCheckCompletes | src/vnm_mad/remotes/lib/vlan.rb:45-73 | over an inventory that already holds every NIC's device, the loop never exits when no NIC enables the VLAN check |
| ActivateProofs.ActivateOverCovered | src/vnm_mad/remotes/lib/vlan.rb:40-78 | activate over an inventory that already holds every NIC's device keeps it, runs no host command and on return has only set up proxies |
| ActivateProofs.ActivateIdempotent | src/vnm_mad/remotes/lib/vlan.rb:40-78 | activating again after a successful activation keeps the inventory and runs no host command; it returns 0 when no device reports a VLAN |
| ActivateProofs.ReactivateWithoutCheckSucceeds | src/vnm_mad/remotes/lib/vlan.rb:40-78 | activating again after a successful activation returns 0 when no NIC enables the VLAN check, for any tagging driver |
| ActivateProofs.BaseActivateAllCompletes | src/vnm_mad/remotes/lib/vlan.rb:227-235 | with the base list_interface_vlan the VLAN check never exits the loop |
| ActivateProofs.BaseActivateSucceeds | src/vnm_mad/remotes/lib/vlan.rb:227-229 | with the base list_interface_vlan and succeeding commands activate returns 0 |
| ActivateProofs.ActivateSucceedsWithoutCheck | src/vnm_mad/remotes/lib/vlan.rb:40-78 | on a host where commands succeed, activate returns 0 whenever no NIC enables the VLAN check, whatever the tagging driver reports |
| DeactivateProofs.DeactivateNicTeardownRule | src/vnm_mad/remotes/lib/vlan.rb:129-146 | proxy teardown iff no guests; device then bridge deletion and inventory removal iff no guests and keep_empty_bridge unset; otherwise the single proxy teardown (when no guests) is the only effect |
| DeactivateProofs.GuestKeepsBridgeAndDevice | src/vnm_mad/remotes/lib/vlan.rb:129-136 | one guest on the bridge keeps the proxy, the NIC's device and the bridge |
| DeactivateProofs.DeactivateOnlyDetachedNic | src/vnm_mad/remotes/lib/vlan.rb:105-110 | while a NIC is being detached, deactivate behaves as if that NIC were the only one |
| DeactivateProofs.ActivateOneOnFreshBridge | src/vnm_mad/remotes/lib/vlan.rb:40-78 | a whole activate of one NIC whose bridge is new returns 0 and records the bridge with the NIC's tagging device as its only member |
| DeactivateProofs.DeactivateSoleMember | src/vnm_mad/remotes/lib/vlan.rb:97-152 | a whole deactivate of a VM's only NIC, whose bridge holds only that NIC's tagging device, returns 0 and removes exactly that bridge |
| DeactivateProofs.ActivateDeactivateRoundTrip | src/vnm_mad/remotes/lib/vlan.rb:62-146 | activate then deactivate of one NIC on a new bridge restores the inventory, and activating again repeats the first activation |
| UpdateProofs.UpdateActsOnFirstEligible | src/vnm_mad/remotes/lib/vlan.rb:167-212 | the update loop's outcome is that of the first eligible NIC alone |
| UpdateProofs.UpdateRecreatesDevice | src/vnm_mad/remotes/lib/vlan.rb:175-199 | a vlan_id or phydev change deletes the old-named device only if it is a member, then creates and attaches the new one |
| UpdateProofs.UpdateMtuOnly | src/vnm_mad/remotes/lib/vlan.rb:201-208 | an MTU-only change sets the MTU in place with no create or delete |
| UpdateProofs.LoopRecreates | src/vnm_mad/remotes/lib/vlan.rb:167-211 | with a vlan_id or phydev change on a host where commands succeed, the loop stops at the first eligible NIC after deleting the old device (if a member) and creating and attaching the new one |
| UpdateProofs.LockedRecreates | src/vnm_mad/remotes/lib/vlan.rb:163-217 | the same inside the lock: update returns nil with exactly those commands between the lock and its release, and the inventory unchanged |
| UpdateProofs.UpdateCallRecreates | src/vnm_mad/remotes/lib/vlan.rb:154-217 | a whole update with a vlan_id or phydev change recreates the first eligible NIC's device, returns nil and keeps the inventory |

## Left out

- Shell command text, `LocalCommand.run_sh` and `command(:ip)`: each command is a `Cmd` event. Whether it fails is a parameter of the host.
- `TProxy` internals: the proxy hooks are `Proxy` events and never fail.
- `DriverLogger` messages written before `exit(-1)`: logging only.
- The real lock and cross-process exclusion: the lock is the `Lock`/`Unlock` events in the trace. The parent driver and the OS provide the exclusion. When activate exits, the lock is stated as still held. Releasing it at process exit is outside the model.
- The concrete tagging drivers: their `create_vlan_dev`, `delete_vlan_dev` and `list_interface_vlan` are host events and host answers.
- The base-class `create_vlan_dev`/`delete_vlan_dev`, which only log and exit: these are a host on which those commands fail.
- The parent's `create_bridge`, `list_bridges` and `process`: modelled only through the assumptions stated above.
- `Integer(nic[:network_id])`: NIC network ids are integers in the model, so the conversion error is not modelled.
- `VlanDriver.Activate`: takes a non-nil inventory. The code dereferences `@bridges` unguarded, so the crash on a nil inventory is not modelled.
- The `:vlan_dev` attribute that `gen_vlan_dev_name` stores on the NIC: the model recomputes the name with `DevOf` wherever the code reads it.

=== FILE: activate_proofs.dfy ===
/** Properties of VLANDriver#activate: the VLAN check, re-activation and the default list_interface_vlan. */
module ActivateProofs {
  import opened Options
  import opened Inventory
  import opened HostEffects
  import opened VlanDriver

  /** The proxy-setup events activate issues for NICs whose devices already exist. */
  function ProxyUps(nics: seq<Nic>): seq<Event>
  {
    if |nics| == 0 then []
    else (if nics[0].phydev.Some? then [Proxy(nics[0], Up)] else []) + ProxyUps(nics[1..])
  }

  /**
   A NIC whose device is already in its bridge: the proxy is set up again and
   nothing else happens; the invocation still exits if the VLAN check fails.
   */
  lemma ActivateNicKnownDevice(st: State, nic: Nic, host: Host)
    requires nic.phydev.Some? && nic.bridge in st.bridges && DevOf(nic) in st.bridges[nic.bridge]
    ensures var r := ActivateNic(st, nic, host);
            && r.st == st.(trace := st.trace + [Proxy(nic, Up)])
            && (r.Abort? <==> (nic.conf.validateVlanId &&
                                exists m :: m in st.bridges[nic.bridge] && Conflicts(m, nic.vlanId, host.interfaceVlan)))
  {
  }

  /**
   A NIC on a bridge that does not exist yet, on a host where commands
   succeed: the bridge is created, the proxy set up, the device created and
   attached, and the bridge recorded with the device as its only member.
   */
  lemma ActivateNicFreshBridge(st: State, nic: Nic, host: Host)
    requires nic.phydev.Some? && nic.bridge !in st.bridges && Reliable(host)
    ensures ActivateNic(st, nic, host) ==
              Continue(State(st.bridges[nic.bridge := [DevOf(nic)]],
                             st.trace + [Run(BridgeAdd(nic.bridge)), Proxy(nic, Up),
                                         Run(VlanDevAdd(DevOf(nic), nic)), Run(LinkMaster(DevOf(nic), nic.bridge))]))
  {
    var dev := DevOf(nic);
    assert !host.fails(BridgeAdd(nic.bridge));
    assert !host.fails(VlanDevAdd(dev, nic));
    assert !host.fails(LinkMaster(dev, nic.bridge));
    var s1 := State(st.bridges[nic.bridge := []], st.trace + [Run(BridgeAdd(nic.bridge))]);
    assert CreateBridge(st, nic, host) == Continue(s1);
    var s2 := s1.(trace := s1.trace + [Proxy(nic, Up)]);
    if nic.conf.validateVlanId {
      assert ValidateVlanId(s2, nic, host) == Continue(s2);
    }
    assert dev !in s2.bridges[nic.bridge];
    var s5 := s2.(trace := s2.trace + [Run(VlanDevAdd(dev, nic)), Run(LinkMaster(dev, nic.bridge))]);
    var done := Continue(s5.(bridges := s5.bridges[nic.bridge := [] + [dev]]));
    assert AddVlanDev(s2, nic, host) == done;
    assert CheckAndAddVlanDev(s2, nic, host) == done;
    assert ActivateNic(st, nic, host) == done;
    assert [] + [dev] == [dev];
    assert s5.trace == st.trace + [Run(BridgeAdd(nic.bridge)), Proxy(nic, Up),
                                   Run(VlanDevAdd(dev, nic)), Run(LinkMaster(dev, nic.bridge))];
  }

  /**
   A NIC whose bridge exists but does not have its device yet, on a host
   where commands succeed and with no VLAN conflict: the proxy is set up, the
   device is created, attached and appended to the bridge's members, once.
   */
  lemma ActivateNicNewDevice(st: State, nic: Nic, host: Host)
    requires nic.phydev.Some? && nic.bridge in st.bridges && DevOf(nic) !in st.bridges[nic.bridge]
    requires Reliable(host)
    requires nic.conf.validateVlanId ==>
               forall m :: m in st.bridges[nic.bridge] ==> !Conflicts(m, nic.vlanId, host.interfaceVlan)
    ensures ActivateNic(st, nic, host) ==
              Continue(State(st.bridges[nic.bridge := st.bridges[nic.bridge] + [DevOf(nic)]],
                             st.trace + [Proxy(nic, Up), Run(VlanDevAdd(DevOf(nic), nic)),
                                         Run(LinkMaster(DevOf(nic), nic.bridge))]))
  {
  }

  /**
   On a host where commands succeed, activating a NIC exits exactly when the
   VLAN check is configured and some member of the bridge, as it was before,
   reports another VLAN; the proxy set-up is then the exit's only effect.
   */
  lemma ActivateNicVlanCheck(st: State, nic: Nic, host: Host)
    requires nic.phydev.Some? && Reliable(host)
    ensures var r := ActivateNic(st, nic, host);
            && (r.Abort? <==> (nic.conf.validateVlanId &&
                                exists m :: m in MembersOf(st.bridges, nic.bridge) && Conflicts(m, nic.vlanId, host.interfaceVlan)))
            && (r.Abort? ==> r.st == st.(trace := st.trace + [Proxy(nic, Up)]))
  {
  }

  /** The proxy set-ups are not host commands. */
  lemma {:induction false} ProxyUpsAreNotCommands(nics: seq<Nic>)
    ensures NoCommands(ProxyUps(nics))
    decreases |nics|
  {
    if |nics| > 0 {
      ProxyUpsAreNotCommands(nics[1..]);
    }
  }

  /** Events after a head whose remainder is a prefix of `rest` are a prefix of the head and `rest`. */
  lemma TraceAfterHead(before: seq<Event>, head: seq<Event>, t: seq<Event>, rest: seq<Event>)
    requires before + head <= t && t[|before + head|..] <= rest
    ensures t[|before|..] <= head + rest
    ensures t == before + head + rest ==> t[|before|..] == head + rest
  {
    assert t[|before|..] == head + t[|before + head|..];
  }

  /**
   Activating NICs that all have their devices in their bridges changes no
   bridge; the events are the proxy set-ups, up to an exit, and with a driver
   whose devices report no VLAN there is no exit.
   */
  lemma {:induction false} ReactivateIsQuiet(nics: seq<Nic>, st: State, host: Host)
    requires Covered(nics, st.bridges)
    ensures var r := ActivateAll(nics, st, host);
            && r.st.bridges == st.bridges
            && r.st.trace[|st.trace|..] <= ProxyUps(nics)
            && (r.Continue? ==> r.st.trace == st.trace + ProxyUps(nics))
            && ((forall d :: host.interfaceVlan(d).None?) ==> r.Continue?)
    decreases |nics|
  {
    if |nics| > 0 {
      var n := nics[0];
      assert n in nics;
      var s := ActivateNic(st, n, host);
      if n.phydev.Some? {
        ActivateNicKnownDevice(st, n, host);
      }
      var head := if n.phydev.Some? then [Proxy(n, Up)] else [];
      assert s.st == st.(trace := st.trace + head);
      assert ProxyUps(nics) == head + ProxyUps(nics[1..]);
      if s.Continue? {
        assert Covered(nics[1..], s.st.bridges) by {
          forall x | x in nics[1..] && x.phydev.Some?
            ensures x.bridge in s.st.bridges && DevOf(x) in s.st.bridges[x.bridge]
          {
            assert x in nics;
          }
        }
        ReactivateIsQuiet(nics[1..], s.st, host);
        var r := ActivateAll(nics[1..], s.st, host);
        assert ActivateAll(nics, st, host) == r;
        TraceAfterHead(st.trace, head, r.st.trace, ProxyUps(nics[1..]));
      } else {
        assert ActivateAll(nics, st, host) == s;
        assert s.st.trace[|st.trace|..] == head;
      }
    }
  }

  /** Over an inventory that already has every NIC's device, the loop cannot exit when no NIC enables the VLAN check. */
  lemma {:induction false} ReactivateWithoutCheckCompletes(nics: seq<Nic>, st: State, host: Host)
    requires Covered(nics, st.bridges)
    requires forall n :: n in nics ==> !n.conf.validateVlanId
    ensures ActivateAll(nics, st, host).Continue?
    decreases |nics|
  {
    if |nics| > 0 {
      var n := nics[0];
      assert n in nics;
      if n.phydev.Some? {
        ActivateNicKnownDevice(st, n, host);
      }
      var s := ActivateNic(st, n, host);
      assert s.Continue? && s.st.bridges == st.bridges;
      assert Covered(nics[1..], s.st.bridges) by {
        forall x | x in nics[1..] && x.phydev.Some?
          ensures x.bridge in s.st.bridges && DevOf(x) in s.st.bridges[x.bridge]
        {
          assert x in nics;
        }
      }
      ReactivateWithoutCheckCompletes(nics[1..], s.st, host);
    }
  }

  /** A prefix of events without host commands has none either. */
  lemma NoCommandsPrefix(a: seq<Event>, b: seq<Event>)
    requires a <= b && NoCommands(b)
    ensures NoCommands(a)
  {
  }

  /**
   A whole activate call over an inventory that already holds every NIC's
   device: the inventory is kept, no host command runs, and on return only
   the proxies were set up again.
   */
  lemma ActivateOverCovered(nics: seq<Nic>, bridges: Bridges, host: Host)
    requires Covered(nics, bridges)
    ensures var r := Activate(nics, bridges, host);
            && r.inventory == Some(bridges)
            && NoCommands(r.trace)
            && (r.exit.Returned? ==> r.trace == [Lock] + ProxyUps(nics) + [Unlock])
            && ((forall d :: host.interfaceVlan(d).None?) ==> r.exit == Returned(Some(0)))
  {
    var st := State(bridges, [Lock]);
    ReactivateIsQuiet(nics, st, host);
    var run := ActivateAll(nics, st, host);
    ProxyUpsAreNotCommands(nics);
    NoCommandsPrefix(run.st.trace[1..], ProxyUps(nics));
    assert run.st.trace == [Lock] + run.st.trace[1..];
    var r := Activate(nics, bridges, host);
    if run.Abort? {
      assert r == Invocation(Exited(-1), run.st.trace, Some(run.st.bridges));
    } else {
      assert r == Invocation(Returned(Some(0)), run.st.trace + [Unlock], Some(run.st.bridges));
    }
  }

  /**
   Activate is idempotent: activating the same NICs again over the inventory
   a successful activation left behind keeps that inventory and runs no host
   command; it only sets up the proxies again.
   */
  lemma ActivateIdempotent(nics: seq<Nic>, snapshot: Bridges, host: Host)
    requires Activate(nics, snapshot, host).exit.Returned?
    ensures var first := Activate(nics, snapshot, host);
            var second := Activate(nics, first.inventory.value, host);
            && second.inventory == first.inventory
            && NoCommands(second.trace)
            && (second.exit.Returned? ==> second.trace == [Lock] + ProxyUps(nics) + [Unlock])
            && ((forall d :: host.interfaceVlan(d).None?) ==> second.exit == Returned(Some(0)))
  {
    var first := Activate(nics, snapshot, host);
    ActivateOverCovered(nics, first.inventory.value, host);
  }

  /**
   Activating again after a successful activation returns 0 when no NIC
   enables the VLAN check, whatever the tagging driver's devices report.
   */
  lemma ReactivateWithoutCheckSucceeds(nics: seq<Nic>, snapshot: Bridges, host: Host)
    requires Activate(nics, snapshot, host).exit.Returned?
    requires forall n :: n in nics ==> !n.conf.validateVlanId
    ensures var first := Activate(nics, snapshot, host);
            Activate(nics, first.inventory.value, host).exit == Returned(Some(0))
  {
    var first := Activate(nics, snapshot, host);
    ReactivateWithoutCheckCompletes(nics, State(first.inventory.value, [Lock]), host);
  }

  /**
   For a tagging driver that keeps the default list_interface_vlan, on a host
   where no command fails, the activate loop never exits.
   */
  lemma {:induction false} BaseActivateAllCompletes(nics: seq<Nic>, st: State, fails: Cmd -> bool)
    requires forall c :: !fails(c)
    ensures ActivateAll(nics, st, Host(BaseInterfaceVlan, fails)).Continue?
    decreases |nics|
  {
    var host := Host(BaseInterfaceVlan, fails);
    if |nics| > 0 {
      if nics[0].phydev.Some? {
        ActivateNicVlanCheck(st, nics[0], host);
      }
      var s := ActivateNic(st, nics[0], host);
      BaseActivateAllCompletes(nics[1..], s.st, fails);
    }
  }

  /**
   The default list_interface_vlan reports nothing, so a tagging driver that
   keeps it, on a host where no command fails, always returns 0 from activate.
   */
  lemma BaseActivateSucceeds(nics: seq<Nic>, snapshot: Bridges, fails: Cmd -> bool)
    requires forall c :: !fails(c)
    ensures Activate(nics, snapshot, Host(BaseInterfaceVlan, fails)).exit == Returned(Some(0))
  {
    BaseActivateAllCompletes(nics, State(snapshot, [Lock]), fails);
  }

  /**
   Activate exits only on a failing command or on the VLAN check, so on a
   host where no command fails and with the check disabled on every NIC it
   returns 0, whatever the inventory and whatever the devices report.
   */
  lemma ActivateSucceedsWithoutCheck(nics: seq<Nic>, snapshot: Bridges, host: Host)
    requires Reliable(host)
    requires forall n :: n in nics ==> !n.conf.validateVlanId
    ensures Activate(nics, snapshot, host).exit == Returned(Some(0))
  {
  }

}

=== FILE: deactivate_proofs.dfy ===
/** Properties of VLANDriver#deactivate: the teardown rule, NIC selection and the round trip. */
module DeactivateProofs {
  import opened Options
  import opened Inventory
  import opened HostEffects
  import opened VlanDriver
  import ActivateProofs

  /**
   The teardown rule for one NIC that is processed: the proxy is torn down
   exactly when no guest is left; the device and the bridge are deleted, in
   that order, exactly when moreover the bridge need not be kept; otherwise
   the inventory is untouched, no command runs and the proxy tear-down is the
   only event.
   */
  lemma DeactivateNicTeardownRule(st: State, nic: Nic, attachNicId: Option<string>, host: Host)
    requires Selected(nic, attachNicId) && nic.phydev.Some? && nic.bridge in st.bridges
    ensures var r := DeactivateNic(st, nic, attachNicId, host);
            var guests := Guests(st.bridges[nic.bridge], nic);
            var teardown := guests == [] && !nic.conf.keepEmptyBridge;
            && (|r.st.trace| > |st.trace| ==> (r.st.trace[|st.trace|] == Proxy(nic, Down) <==> guests == []))
            && (|r.st.trace| == |st.trace| <==> guests != [])
            && (!teardown ==> r == Continue(st.(trace := st.trace + (if guests == [] then [Proxy(nic, Down)] else []))))
            && (teardown && Reliable(host) ==>
                  && r.Continue?
                  && r.st.bridges == st.bridges - {nic.bridge}
                  && r.st.trace[|st.trace|..] ==
                       [Proxy(nic, Down), Run(VlanDevDelete(DevOf(nic), nic)), Run(LinkDelete(nic.bridge))])
  {
  }

  /**
   One other VM's device on the bridge is enough to keep everything: neither
   the proxy, nor this NIC's tagging device, nor the bridge is torn down.
   */
  lemma GuestKeepsBridgeAndDevice(st: State, nic: Nic, attachNicId: Option<string>, host: Host, guest: string)
    requires Selected(nic, attachNicId) && nic.phydev.Some? && nic.bridge in st.bridges
    requires guest in st.bridges[nic.bridge]
    requires guest != nic.phydev.value && guest != DevOf(nic) && guest != nic.bridge + "b"
    ensures DeactivateNic(st, nic, attachNicId, host) == Continue(st)
  {
  }

  /** The NICs with a given id, in order. */
  function WithId(nics: seq<Nic>, id: string): (r: seq<Nic>)
    ensures forall n :: n in r <==> n in nics && n.nicId == id
  {
    if |nics| == 0 then []
    else (if nics[0].nicId == id then [nics[0]] else []) + WithId(nics[1..], id)
  }

  /** While a NIC is being detached, deactivate works on that NIC alone. */
  lemma {:induction false} DeactivateOnlyDetachedNic(nics: seq<Nic>, id: string, st: State, host: Host)
    ensures DeactivateAll(nics, Some(id), st, host) == DeactivateAll(WithId(nics, id), None, st, host)
    decreases |nics|
  {
    if |nics| > 0 {
      var n := nics[0];
      if n.nicId == id {
        assert DeactivateNic(st, n, Some(id), host) == DeactivateNic(st, n, None, host);
        var s := DeactivateNic(st, n, None, host);
        assert WithId(nics, id) == [n] + WithId(nics[1..], id);
        assert WithId(nics, id)[1..] == WithId(nics[1..], id);
        if s.Continue? {
          DeactivateOnlyDetachedNic(nics[1..], id, s.st, host);
        }
      } else {
        assert DeactivateNic(st, n, Some(id), host) == Continue(st);
        assert WithId(nics, id) == WithId(nics[1..], id);
        DeactivateOnlyDetachedNic(nics[1..], id, st, host);
      }
    }
  }

  /**
   Activating one NIC whose bridge does not exist yet returns 0 and records
   the bridge with the NIC's tagging device as its only member.
   */
  lemma ActivateOneOnFreshBridge(nic: Nic, snapshot: Bridges, host: Host)
    requires nic.phydev.Some? && nic.bridge !in snapshot && Reliable(host)
    ensures var up := Activate([nic], snapshot, host);
            up.exit == Returned(Some(0)) && up.inventory == Some(snapshot[nic.bridge := [DevOf(nic)]])
  {
    var st0 := State(snapshot, [Lock]);
    ActivateProofs.ActivateNicFreshBridge(st0, nic, host);
    var a := ActivateNic(st0, nic, host);
    assert ActivateAll([nic], st0, host) == ActivateAll([], a.st, host);
  }

  /**
   Deactivating the only NIC of a VM whose bridge was added, holding nothing
   but that NIC's tagging device, to a snapshot returns 0 and gives the
   snapshot back.
   */
  lemma DeactivateSoleMember(vm: Vm, snapshot: Bridges, nic: Nic, host: Host)
    requires nic.phydev.Some? && !nic.conf.keepEmptyBridge && nic.bridge !in snapshot
    requires vm.nics == [nic] && !vm.aliasAttached && Selected(nic, vm.attachNicId)
    requires Reliable(host)
    ensures var down := Deactivate(vm, Some(snapshot[nic.bridge := [DevOf(nic)]]), host);
            down.exit == Returned(Some(0)) && down.inventory == Some(snapshot)
  {
    var inv := snapshot[nic.bridge := [DevOf(nic)]];
    var st1 := State(inv, [Lock]);
    assert Guests(inv[nic.bridge], nic) == [];
    DeactivateNicTeardownRule(st1, nic, vm.attachNicId, host);
    var d := DeactivateNic(st1, nic, vm.attachNicId, host);
    assert DeactivateAll(vm.nics, vm.attachNicId, st1, host) == DeactivateAll([], vm.attachNicId, d.st, host);
    assert inv - {nic.bridge} == snapshot;
  }

  /**
   Activating one NIC on a bridge that does not exist yet and then
   deactivating it leaves the inventory as it was before; activating it again
   repeats the first activation exactly.
   */
  lemma ActivateDeactivateRoundTrip(nic: Nic, snapshot: Bridges, vm: Vm, host: Host)
    requires nic.phydev.Some? && nic.bridge !in snapshot && !nic.conf.keepEmptyBridge
    requires vm.nics == [nic] && !vm.aliasAttached && Selected(nic, vm.attachNicId)
    requires Reliable(host)
    ensures var up := Activate([nic], snapshot, host);
            var down := Deactivate(vm, up.inventory, host);
            && up.exit == Returned(Some(0))
            && up.inventory == Some(snapshot[nic.bridge := [DevOf(nic)]])
            && down.exit == Returned(Some(0))
            && down.inventory == Some(snapshot)
            && Activate([nic], down.inventory.value, host) == up
  {
    ActivateOneOnFreshBridge(nic, snapshot, host);
    DeactivateSoleMember(vm, snapshot, nic, host);
  }

}

=== FILE: host.dfy ===
/**
 What the reconciler does to the host, as a trace of events, and the host's
 answers to it. Shell commands, the transparent proxy and the invocation lock
 are not executed: each becomes an event appended to the trace.
 */
module HostEffects {
  import opened Options
  import opened Inventory

  /** The per-NIC policy flags of the driver configuration. */
  datatype Conf = Conf(validateVlanId: bool, keepEmptyBridge: bool)

  /** One NIC of the VM as the driver sees it; nil attributes are None. */
  datatype Nic = Nic(
    nicId: string,
    networkId: int,
    phydev: Option<string>,
    bridge: string,
    vlanId: Option<string>,
    mtu: Option<string>,
    conf: Conf)

  /** A host command: each may fail, and a failure is assumed to end the process with exit(-1). */
  datatype Cmd =
    | BridgeAdd(bridge: string)                  // create_bridge of the parent driver
    | VlanDevAdd(dev: string, nic: Nic)          // create_vlan_dev of the tagging driver
    | VlanDevDelete(dev: string, nic: Nic)       // delete_vlan_dev of the tagging driver
    | LinkMaster(dev: string, bridge: string)    // ip link set <dev> master <bridge>
    | LinkDelete(bridge: string)                 // ip link delete <bridge>
    | LinkMtu(dev: string, mtu: Option<string>)  // ip link set <dev> mtu <mtu>

  datatype Direction = Up | Down

  datatype Event =
    | Lock
    | Unlock
    | Proxy(nic: Nic, dir: Direction)            // TProxy.setup_tproxy(nic, dir)
    | Run(cmd: Cmd)

  /**
   The host as the driver observes it: the VLAN a device reports
   (list_interface_vlan of the tagging driver) and which commands fail.
   */
  datatype Host = Host(interfaceVlan: string -> Option<string>, fails: Cmd -> bool)

  /** list_interface_vlan of the base driver: no device reports a VLAN. */
  function BaseInterfaceVlan(dev: string): Option<string>
  {
    None
  }

  /** A host on which no command fails. */
  ghost predicate Reliable(host: Host)
  {
    forall c :: !host.fails(c)
  }

  /** The in-memory inventory and the events so far, inside one invocation. */
  datatype State = State(bridges: Bridges, trace: seq<Event>)

  /**
   How processing of one NIC ends: go on with the next NIC (`next`), return
   from the whole operation (`return` inside the loop), or exit(-1).
   */
  datatype Flow = Continue(st: State) | Stop(st: State) | Abort(st: State) {

    predicate IsFailure()
    {
      !Continue?
    }

    function PropagateFailure(): Flow
      requires IsFailure()
    {
      this
    }

    function Extract(): State
      requires Continue?
    {
      st
    }
  }

  /** `after` extends `before` without taking or releasing the lock. */
  predicate Appends(before: seq<Event>, after: seq<Event>)
  {
    before <= after && Lock !in after[|before|..] && Unlock !in after[|before|..]
  }

  lemma AppendsTransitive(a: seq<Event>, b: seq<Event>, c: seq<Event>)
    requires Appends(a, b) && Appends(b, c)
    ensures Appends(a, c)
  {
  }

  /** Appending one event that is neither Lock nor Unlock keeps `Appends`. */
  lemma AppendsEvent(a: seq<Event>, b: seq<Event>, e: Event)
    requires Appends(a, b) && !e.Lock? && !e.Unlock?
    ensures Appends(a, b + [e])
  {
    assert (b + [e])[|a|..] == b[|a|..] + [e];
  }

  /** No host command among the events. */
  predicate NoCommands(events: seq<Event>)
  {
    forall i :: 0 <= i < |events| ==> !events[i].Run?
  }

  /** Every host command among the events succeeds on the host. */
  predicate AllSucceed(events: seq<Event>, host: Host)
  {
    forall e :: e in events && e.Run? ==> !host.fails(e.cmd)
  }

  /**
   The events appended to `before` end the way a failing command ends a
   process: when `failed`, the last new event is a command that fails and
   every earlier new command succeeded; otherwise every new command succeeded.
   */
  predicate FailStop(before: seq<Event>, after: seq<Event>, host: Host, failed: bool)
  {
    && |before| <= |after|
    && if failed then
         && |after| > |before|
         && after[|after| - 1].Run? && host.fails(after[|after| - 1].cmd)
         && AllSucceed(after[|before|..|after| - 1], host)
       else AllSucceed(after[|before|..], host)
  }

  /** Successful events followed by events that end in a given way end that way. */
  lemma {:induction false} FailStopCompose(a: seq<Event>, b: seq<Event>, c: seq<Event>, host: Host, failed: bool)
    requires a <= b && b <= c
    requires FailStop(a, b, host, false) && FailStop(b, c, host, failed)
    ensures FailStop(a, c, host, failed)
  {
    var n := if failed then |c| - 1 else |c|;
    assert c[|a|..n] == b[|a|..] + c[|b|..n];
  }

  /** Events without a command end as success does. */
  lemma FailStopQuiet(before: seq<Event>, quiet: seq<Event>, host: Host)
    requires NoCommands(quiet)
    ensures FailStop(before, before + quiet, host, false)
  {
    assert (before + quiet)[|before|..] == quiet;
  }

  /**
   A run after taking the lock: every command of the whole trace, with the
   lock released at the end, succeeds exactly when the run did not end on a
   failing command.
   */
  lemma LockedRun(t: seq<Event>, host: Host, failed: bool)
    requires [Lock] <= t && FailStop([Lock], t, host, failed)
    ensures FailStop([], t, host, failed)
    ensures AllSucceed(t + [Unlock], host) <==> !failed
  {
    var n := if failed then |t| - 1 else |t|;
    assert t[0..n] == [Lock] + t[1..n];
    assert t == t[..n] + t[n..];
    if failed {
      assert t[|t| - 1] in t + [Unlock];
    } else {
      assert t + [Unlock] == [Lock] + t[1..] + [Unlock];
    }
  }

  /**
   The trace of a run under the lock with the lock released at the end: the
   lock is taken first and released last, each once, and every command
   succeeded exactly when the run did not end on a failing command.
   */
  function Release(t: seq<Event>, host: Host, failed: bool): (r: seq<Event>)
    requires Appends([Lock], t) && FailStop([Lock], t, host, failed)
    ensures r == t + [Unlock]
    ensures |r| >= 2 && r[0] == Lock && r[|r| - 1] == Unlock
    ensures Lock !in r[1..] && Unlock !in r[..|r| - 1]
    ensures AllSucceed(r, host) <==> !failed
  {
    LockedRun(t, host, failed);
    var r := t + [Unlock];
    assert r[1..] == t[1..] + [Unlock];
    assert r[..|r| - 1] == [Lock] + t[1..];
    r
  }

  /** Runs one host command: it is recorded whether it succeeds or not. */
  function Exec(st: State, c: Cmd, host: Host): (r: Flow)
    ensures r.st.bridges == st.bridges
    ensures r.st.trace == st.trace + [Run(c)]
    ensures r.Abort? <==> host.fails(c)
    ensures !r.Stop?
    ensures FailStop(st.trace, r.st.trace, host, r.Abort?)
  {
    var st' := st.(trace := st.trace + [Run(c)]);
    if host.fails(c) then Abort(st') else Continue(st')
  }

  /** How an invocation ends: a Ruby return value (nil is None) or exit(status). */
  datatype Exit = Returned(value: Option<int>) | Exited(status: int)

  /**
   One invocation: how it ended, the events it caused, and the in-memory
   inventory at the end (None when it returned before reading it).
   */
  datatype Invocation = Invocation(exit: Exit, trace: seq<Event>, inventory: Option<Bridges>)

}

=== FILE: inventory.dfy ===
/**
 The bridge inventory (list_bridges): bridge name -> member device names, in
 the order the host lists them. It is read once per invocation and then kept
 in step, in memory, with the devices the invocation adds and removes.
 */
module Inventory {

  type Bridges = map<string, seq<string>>

  /**
   Ruby's Array#- : every occurrence of a dropped name is removed, and every
   other name keeps all of its occurrences (WithoutKeepsOthers).
   */
  function Without(xs: seq<string>, drop: set<string>): (r: seq<string>)
    ensures forall x :: x in r <==> x in xs && x !in drop
    ensures |r| <= |xs|
  {
    if |xs| == 0 then []
    else
      (if xs[0] in drop then [] else [xs[0]]) + Without(xs[1..], drop)
  }

  /** A name that is not dropped occurs in Without(xs, drop) as often as in xs. */
  lemma {:induction false} WithoutKeepsOthers(xs: seq<string>, drop: set<string>, x: string)
    requires x !in drop
    ensures multiset(Without(xs, drop))[x] == multiset(xs)[x]
    decreases |xs|
  {
    if |xs| > 0 {
      WithoutKeepsOthers(xs[1..], drop, x);
      assert xs == [xs[0]] + xs[1..];
    }
  }

  /** Every bridge of `before` is still there in `after`, with at least the same members. */
  predicate Grows(before: Bridges, after: Bridges)
  {
    forall b :: b in before ==> b in after && forall m :: m in before[b] ==> m in after[b]
  }

  lemma GrowsTransitive(a: Bridges, b: Bridges, c: Bridges)
    requires Grows(a, b) && Grows(b, c)
    ensures Grows(a, c)
  {
  }

}

=== FILE: naming.dfy ===
/**
 The device namer of the VLAN driver (gen_vlan_dev_name): the tagging device
 that carries one VLAN over a physical device is named "<phydev>.<vlan_id>".
 The name is recomputed from the NIC each time it is needed, never stored.
 */
module DeviceNaming {
  import opened Options

  /** Ruby string interpolation of a possibly-nil attribute: nil renders as "". */
  function Text(o: Option<string>): string
  {
    match o
    case None => ""
    case Some(s) => s
  }

  /** The tagging device name for a physical device and a VLAN id. */
  function DevName(phydev: Option<string>, vlanId: Option<string>): string
  {
    Text(phydev) + "." + Text(vlanId)
  }

  /** Position of the last '.' in s, if any. */
  function LastDot(s: string): (r: Option<nat>)
    ensures r.Some? ==> r.value < |s| && s[r.value] == '.'
    ensures r.Some? ==> forall j :: r.value < j < |s| ==> s[j] != '.'
    ensures r.None? ==> forall j :: 0 <= j < |s| ==> s[j] != '.'
  {
    if |s| == 0 then None
    else if s[|s| - 1] == '.' then Some(|s| - 1)
    else LastDot(s[..|s| - 1])
  }

  /**
   Reads a device name back as (physical device, VLAN id) by splitting at the
   last '.'; a physical device may itself contain dots (a stacked VLAN parent),
   a VLAN id does not.
   */
  function SplitDevName(name: string): (r: Option<(string, string)>)
    ensures r.Some? ==> name == r.value.0 + "." + r.value.1
    ensures r.Some? ==> forall j :: 0 <= j < |r.value.1| ==> r.value.1[j] != '.'
    ensures r.None? <==> forall j :: 0 <= j < |name| ==> name[j] != '.'
  {
    match LastDot(name)
    case None => None
    case Some(k) =>
      assert name == name[..k] + "." + name[k + 1..];
      Some((name[..k], name[k + 1..]))
  }

  /** Splitting a generated name gives back the physical device and the VLAN id. */
  lemma SplitDevNameInverse(phydev: string, vlanId: string)
    requires forall j :: 0 <= j < |vlanId| ==> vlanId[j] != '.'
    ensures SplitDevName(DevName(Some(phydev), Some(vlanId))) == Some((phydev, vlanId))
  {
    var name := DevName(Some(phydev), Some(vlanId));
    assert name[|phydev|] == '.';
    assert forall j :: |phydev| < j < |name| ==> name[j] == vlanId[j - |phydev| - 1];
    var k := LastDot(name);
    assert k.Some?;
    assert k.value == |phydev|;
    assert name[..|phydev|] == phydev;
    assert name[|phydev| + 1..] == vlanId;
  }

  /**
   Distinct (physical device, VLAN id) pairs name distinct devices, so the name
   identifies the pair it was derived from.
   */
  lemma DevNameInjective(phydev1: string, vlanId1: string, phydev2: string, vlanId2: string)
    requires forall j :: 0 <= j < |vlanId1| ==> vlanId1[j] != '.'
    requires forall j :: 0 <= j < |vlanId2| ==> vlanId2[j] != '.'
    requires DevName(Some(phydev1), Some(vlanId1)) == DevName(Some(phydev2), Some(vlanId2))
    ensures phydev1 == phydev2 && vlanId1 == vlanId2
  {
    SplitDevNameInverse(phydev1, vlanId1);
    SplitDevNameInverse(phydev2, vlanId2);
  }

}

=== FILE: options.dfy ===
/** Optional values: the driver's NIC attributes and lookups are Ruby values that may be nil. */
module Options {

  datatype Option<+T> = None | Some(value: T)

}

=== FILE: update_proofs.dfy ===
/** Properties of VLANDriver#update: one NIC per call, recreate versus MTU-only. */
module UpdateProofs {
  import opened Options
  import opened Inventory
  import opened HostEffects
  import opened VlanDriver

  /**
   The update loop acts on the first eligible NIC only: its outcome is that
   of the update step for that NIC alone, whatever follows it.
   */
  lemma {:induction false} UpdateActsOnFirstEligible(
    nics: seq<Nic>, changes: map<string, Option<string>>, vnetId: int, st: State, host: Host, k: nat)
    requires k < |nics| && Eligible(nics[k], vnetId, st.bridges)
    requires forall j :: 0 <= j < k ==> !Eligible(nics[j], vnetId, st.bridges)
    ensures UpdateAll(nics, changes, vnetId, st, host) == UpdateNic(st, nics[k], changes, vnetId, host)
    decreases k
  {
    if k == 0 {
      assert !UpdateNic(st, nics[0], changes, vnetId, host).Continue?;
    } else {
      assert !Eligible(nics[0], vnetId, st.bridges);
      assert UpdateNic(st, nics[0], changes, vnetId, host) == Continue(st);
      UpdateActsOnFirstEligible(nics[1..], changes, vnetId, st, host, k - 1);
    }
  }

  /**
   A vlan_id or phydev change, on a host where commands succeed: the device
   named from the NIC overlaid with the change set (the old device) is deleted
   if it is in the bridge, then the device named from the NIC is created and
   attached, and the loop stops.
   */
  lemma UpdateRecreatesDevice(st: State, nic: Nic, changes: map<string, Option<string>>, vnetId: int, host: Host)
    requires Eligible(nic, vnetId, st.bridges)
    requires Present(changes, VlanIdKey) || Present(changes, PhydevKey)
    requires Reliable(host)
    ensures var r := UpdateNic(st, nic, changes, vnetId, host);
            var prior := Overlay(nic, changes);
            var deleted := if DevOf(prior) in st.bridges[nic.bridge] then [Run(VlanDevDelete(DevOf(prior), prior))] else [];
            r == Stop(st.(trace := st.trace + deleted +
                                   [Run(VlanDevAdd(DevOf(nic), nic)), Run(LinkMaster(DevOf(nic), nic.bridge))]))
  {
  }

  /**
   An MTU-only change, on a host where commands succeed: the MTU of the
   NIC's device is set in place and nothing is created or deleted.
   */
  lemma UpdateMtuOnly(st: State, nic: Nic, changes: map<string, Option<string>>, vnetId: int, host: Host)
    requires Eligible(nic, vnetId, st.bridges)
    requires !Present(changes, VlanIdKey) && !Present(changes, PhydevKey) && Present(changes, MtuKey)
    requires Reliable(host)
    ensures UpdateNic(st, nic, changes, vnetId, host) ==
              Stop(st.(trace := st.trace + [Run(LinkMtu(DevOf(nic), nic.mtu))]))
  {
  }

  /**
   Under the lock, the update loop over an inventory whose first eligible NIC
   sees a vlan_id or phydev change replaces that NIC's device and returns nil.
   */
  /**
   The loop over the NICs, on a host where commands succeed, with a vlan_id
   or phydev change: it stops after recreating the first eligible NIC's
   device, leaving the inventory as it was.
   */
  lemma LoopRecreates(nics: seq<Nic>, changes: map<string, Option<string>>, vnetId: int, st: State,
                      host: Host, k: nat)
    requires k < |nics| && Eligible(nics[k], vnetId, st.bridges)
    requires forall j :: 0 <= j < k ==> !Eligible(nics[j], vnetId, st.bridges)
    requires Present(changes, VlanIdKey) || Present(changes, PhydevKey)
    requires Reliable(host)
    ensures var nic := nics[k];
            var prior := Overlay(nic, changes);
            var deleted := if DevOf(prior) in st.bridges[nic.bridge] then [Run(VlanDevDelete(DevOf(prior), prior))] else [];
            UpdateAll(nics, changes, vnetId, st, host) ==
              Stop(st.(trace := st.trace + deleted + [Run(VlanDevAdd(DevOf(nic), nic)), Run(LinkMaster(DevOf(nic), nic.bridge))]))
  {
    UpdateActsOnFirstEligible(nics, changes, vnetId, st, host, k);
    UpdateRecreatesDevice(st, nics[k], changes, vnetId, host);
  }

  /** The same, inside the lock: update returns nil after releasing it. */
  lemma LockedRecreates(nics: seq<Nic>, changes: map<string, Option<string>>, vnetId: int, bridges: Bridges,
                        host: Host, k: nat)
    requires k < |nics| && Eligible(nics[k], vnetId, bridges)
    requires forall j :: 0 <= j < k ==> !Eligible(nics[j], vnetId, bridges)
    requires Present(changes, VlanIdKey) || Present(changes, PhydevKey)
    requires Reliable(host)
    ensures var nic := nics[k];
            var prior := Overlay(nic, changes);
            var deleted := if DevOf(prior) in bridges[nic.bridge] then [Run(VlanDevDelete(DevOf(prior), prior))] else [];
            UpdateLocked(nics, changes, vnetId, bridges, host) ==
              Invocation(Returned(None),
                         [Lock] + deleted + [Run(VlanDevAdd(DevOf(nic), nic)), Run(LinkMaster(DevOf(nic), nic.bridge)), Unlock],
                         Some(bridges))
  {
    var nic := nics[k];
    LoopRecreates(nics, changes, vnetId, State(bridges, [Lock]), host, k);
    var prior := Overlay(nic, changes);
    var deleted := if DevOf(prior) in bridges[nic.bridge] then [Run(VlanDevDelete(DevOf(prior), prior))] else [];
    var made := [Run(VlanDevAdd(DevOf(nic), nic)), Run(LinkMaster(DevOf(nic), nic.bridge))];
    assert [Lock] + deleted + made + [Unlock] == [Lock] + deleted + (made + [Unlock]);
  }

  /**
   A whole update call with a vlan_id or phydev change, on a host where
   commands succeed: the first eligible NIC's device is recreated, update
   returns nil, and the inventory is unchanged.
   */
  lemma UpdateCallRecreates(vm: Vm, vnetId: int, snapshot: Bridges, host: Host, k: nat)
    requires k < |vm.nics| && Eligible(vm.nics[k], vnetId, snapshot)
    requires forall j :: 0 <= j < k ==> !Eligible(vm.nics[j], vnetId, snapshot)
    requires Present(vm.changes, VlanIdKey) || Present(vm.changes, PhydevKey)
    requires Reliable(host)
    ensures var r := Update(vm, vnetId, Some(snapshot), host);
            var nic := vm.nics[k];
            var prior := Overlay(nic, SupportedChanges(vm.changes));
            var deleted := if DevOf(prior) in snapshot[nic.bridge] then [Run(VlanDevDelete(DevOf(prior), prior))] else [];
            r == Invocation(Returned(None),
                            [Lock] + deleted + [Run(VlanDevAdd(DevOf(nic), nic)), Run(LinkMaster(DevOf(nic), nic.bridge)), Unlock],
                            Some(snapshot))
  {
    var changes := SupportedChanges(vm.changes);
    assert Present(changes, VlanIdKey) || Present(changes, PhydevKey);
    assert changes != map[];
    LockedRecreates(vm.nics, changes, vnetId, snapshot, host, k);
  }

}

=== FILE: vlan_driver.dfy ===
/**
 VNMMAD::VLANDriver: keeps a hypervisor's bridges and VLAN tagging devices in
 line with a VM's NICs. Each entry point takes the lock, reads the bridge
 inventory, folds a per-NIC step over the NICs in order and releases the lock.
 */
module VlanDriver {
  import opened Options
  import opened DeviceNaming
  import opened Inventory
  import opened HostEffects

  /** The attribute names of the change set that update may apply live (SUPPORTED_UPDATE). */
  const VlanIdKey: string := "vlan_id"
  const MtuKey: string := "mtu"
  const PhydevKey: string := "phydev"
  const SupportedUpdate: set<string> := {VlanIdKey, MtuKey, PhydevKey}

  /**
   The VM as the driver reads it: its NICs in order, whether a NIC_ALIAS is
   being attached, the id of the NIC being attached (if any), and the changed
   attributes of the NIC's network (@vm.changes).
   */
  datatype Vm = Vm(
    nics: seq<Nic>,
    aliasAttached: bool,
    attachNicId: Option<string>,
    changes: map<string, Option<string>>)

  /** The tagging device of a NIC (gen_vlan_dev_name). */
  function DevOf(nic: Nic): string
  {
    DevName(nic.phydev, nic.vlanId)
  }

  /** Every NIC with a physical device has its device in its bridge. */
  predicate Covered(nics: seq<Nic>, bridges: Bridges)
  {
    forall n :: n in nics && n.phydev.Some? ==> n.bridge in bridges && DevOf(n) in bridges[n.bridge]
  }

  // ---------------------------------------------------------------------------
  // activate
  // ---------------------------------------------------------------------------

  /**
   create_bridge of the parent driver, as this driver relies on it: afterwards
   the inventory has the NIC's bridge, with no members if it was new.
   */
  function CreateBridge(st: State, nic: Nic, host: Host): (r: Flow)
    ensures !r.Stop?
    ensures r.Continue? ==> nic.bridge in r.st.bridges
    ensures nic.bridge in st.bridges ==> r == Continue(st)
    ensures nic.bridge !in st.bridges ==> r.st.trace == st.trace + [Run(BridgeAdd(nic.bridge))]
    ensures nic.bridge !in st.bridges && r.Continue? ==> r.st.bridges == st.bridges[nic.bridge := []]
    ensures r.Abort? ==> r.st.bridges == st.bridges
    ensures Grows(st.bridges, r.st.bridges)
    ensures r.st.bridges - {nic.bridge} == st.bridges - {nic.bridge}
    ensures FailStop(st.trace, r.st.trace, host, r.Abort?)
  {
    if nic.bridge in st.bridges then Continue(st)
    else
      var s :- Exec(st, BridgeAdd(nic.bridge), host);
      Continue(s.(bridges := s.bridges[nic.bridge := []]))
  }

  /** A bridge member that reports a VLAN other than the NIC's. */
  predicate Conflicts(member: string, vlanId: Option<string>, interfaceVlan: string -> Option<string>)
  {
    interfaceVlan(member).Some? && interfaceVlan(member) != vlanId
  }

  /** The first member reporting a VLAN other than the NIC's; members reporting none are passed over. */
  function FirstConflict(members: seq<string>, vlanId: Option<string>, interfaceVlan: string -> Option<string>)
    : (r: Option<string>)
    ensures r.None? <==> forall m :: m in members ==> !Conflicts(m, vlanId, interfaceVlan)
    ensures r.Some? ==> r.value in members && Conflicts(r.value, vlanId, interfaceVlan)
  {
    if |members| == 0 then None
    else if Conflicts(members[0], vlanId, interfaceVlan) then Some(members[0])
    else FirstConflict(members[1..], vlanId, interfaceVlan)
  }

  /** validate_vlan_id: exit(-1) if some member of the NIC's bridge carries another VLAN. */
  function ValidateVlanId(st: State, nic: Nic, host: Host): (r: Flow)
    requires nic.bridge in st.bridges
    ensures r.st == st && !r.Stop?
    ensures r.Abort? <==> exists m :: m in st.bridges[nic.bridge] && Conflicts(m, nic.vlanId, host.interfaceVlan)
  {
    match FirstConflict(st.bridges[nic.bridge], nic.vlanId, host.interfaceVlan)
    case Some(_) => Abort(st)
    case None => Continue(st)
  }

  /** The members of a bridge, none if the bridge does not exist yet. */
  function MembersOf(bridges: Bridges, bridge: string): seq<string>
  {
    if bridge in bridges then bridges[bridge] else []
  }

  /** Creates the NIC's tagging device and attaches it to the NIC's bridge on the host. */
  function CreateAndAttach(st: State, nic: Nic, host: Host): (r: Flow)
    ensures !r.Stop?
    ensures r.st.bridges == st.bridges
    ensures Appends(st.trace, r.st.trace)
    ensures FailStop(st.trace, r.st.trace, host, r.Abort?)
    ensures Reliable(host) ==>
              r == Continue(st.(trace := st.trace + [Run(VlanDevAdd(DevOf(nic), nic)), Run(LinkMaster(DevOf(nic), nic.bridge))]))
  {
    var s1 :- Exec(st, VlanDevAdd(DevOf(nic), nic), host);
    Exec(s1, LinkMaster(DevOf(nic), nic.bridge), host)
  }

  /** Creates the NIC's tagging device, attaches it to the bridge and records it there. */
  function AddVlanDev(st: State, nic: Nic, host: Host): (r: Flow)
    requires nic.bridge in st.bridges
    ensures !r.Stop?
    ensures Appends(st.trace, r.st.trace)
    ensures r.Continue? ==> r.st.bridges == st.bridges[nic.bridge := st.bridges[nic.bridge] + [DevOf(nic)]]
    ensures r.Abort? ==> r.st.bridges == st.bridges
    ensures Reliable(host) ==> r.Continue?
    ensures FailStop(st.trace, r.st.trace, host, r.Abort?)
  {
    var dev := DevOf(nic);
    var s1 :- Exec(st, VlanDevAdd(dev, nic), host);
    var s2 :- Exec(s1, LinkMaster(dev, nic.bridge), host);
    Continue(s2.(bridges := s2.bridges[nic.bridge := s2.bridges[nic.bridge] + [dev]]))
  }

  /** The events end with the proxy set-up of one of the NICs that has the VLAN check enabled. */
  predicate CheckExit(events: seq<Event>, nics: seq<Nic>)
  {
    && |events| > 0
    && events[|events| - 1].Proxy? && events[|events| - 1].dir == Up
    && events[|events| - 1].nic in nics && events[|events| - 1].nic.conf.validateVlanId
  }

  /**
   The rest of the activate step once the proxy is set up: the VLAN check if
   it is enabled, then the tagging device unless the bridge already has it.
   */
  function CheckAndAddVlanDev(st: State, nic: Nic, host: Host): (r: Flow)
    requires nic.bridge in st.bridges
    ensures !r.Stop?
    ensures Appends(st.trace, r.st.trace)
    ensures r.st.bridges == st.bridges ||
            r.st.bridges == st.bridges[nic.bridge := st.bridges[nic.bridge] + [DevOf(nic)]]
    ensures Grows(st.bridges, r.st.bridges)
    ensures r.st.bridges - {nic.bridge} == st.bridges - {nic.bridge}
    ensures r.Continue? ==> DevOf(nic) in r.st.bridges[nic.bridge]
    // an exit without a new event is the VLAN check's
    ensures r.Abort? && r.st.trace == st.trace ==> nic.conf.validateVlanId
    ensures FailStop(st.trace, r.st.trace, host, r.Abort? && r.st.trace != st.trace)
  {
    var s3 :- if nic.conf.validateVlanId then ValidateVlanId(st, nic, host) else Continue(st);
    if DevOf(nic) in s3.bridges[nic.bridge] then Continue(s3)
    else AddVlanDev(s3, nic, host)
  }

  /**
   Successful commands, the NIC's proxy set-up, then a check-and-add step:
   together they end as a failing command does, unless the step exited on the
   VLAN check right after the proxy set-up.
   */
  lemma ProxyThenCheck(before: seq<Event>, mid: seq<Event>, r: Flow, nic: Nic, host: Host)
    requires before <= mid && FailStop(before, mid, host, false)
    requires Appends(mid + [Proxy(nic, Up)], r.st.trace)
    requires r.Abort? && r.st.trace == mid + [Proxy(nic, Up)] ==> nic.conf.validateVlanId
    requires FailStop(mid + [Proxy(nic, Up)], r.st.trace, host, r.Abort? && r.st.trace != mid + [Proxy(nic, Up)])
    ensures FailStop(before, r.st.trace, host, r.Abort? && !CheckExit(r.st.trace, [nic]))
  {
    var s2 := mid + [Proxy(nic, Up)];
    assert s2[|before|..] == mid[|before|..] + [Proxy(nic, Up)];
    assert FailStop(before, s2, host, false);
    var failed := r.Abort? && r.st.trace != s2;
    if r.st.trace == s2 {
      assert r.st.trace[|r.st.trace| - 1] == Proxy(nic, Up);
    }
    assert failed == (r.Abort? && !CheckExit(r.st.trace, [nic]));
    FailStopCompose(before, s2, r.st.trace, host, failed);
  }

  /** The body of the activate loop for one NIC. */
  function ActivateNic(st: State, nic: Nic, host: Host): (r: Flow)
    ensures !r.Stop?
    ensures Appends(st.trace, r.st.trace)
    ensures Grows(st.bridges, r.st.bridges)
    ensures r.st.bridges - {nic.bridge} == st.bridges - {nic.bridge}
    // NICs without a physical device are skipped
    ensures nic.phydev.None? ==> r == Continue(st)
    // afterwards the NIC's device is in its bridge
    ensures r.Continue? && nic.phydev.Some? ==> nic.bridge in r.st.bridges && DevOf(nic) in r.st.bridges[nic.bridge]
    // an exit follows a failing command, or the proxy set-up when the VLAN check is enabled
    ensures FailStop(st.trace, r.st.trace, host, r.Abort? && !CheckExit(r.st.trace, [nic]))
  {
    if nic.phydev.None? then Continue(st)
    else
      match CreateBridge(st, nic, host)
      case Continue(s1) =>
        var s2 := s1.(trace := s1.trace + [Proxy(nic, Up)]);
        var r := CheckAndAddVlanDev(s2, nic, host);
        ProxyThenCheck(st.trace, s1.trace, r, nic, host);
        GrowsTransitive(st.bridges, s1.bridges, r.st.bridges);
        AppendsEvent(st.trace, s1.trace, Proxy(nic, Up));
        AppendsTransitive(st.trace, s2.trace, r.st.trace);
        r
      case other => other
  }

  /** An exit of the first NIC's step ends the loop over it and more NICs the same way. */
  lemma CheckExitFirst(before: seq<Event>, after: seq<Event>, host: Host, n: Nic, rest: seq<Nic>)
    requires FailStop(before, after, host, !CheckExit(after, [n]))
    ensures FailStop(before, after, host, !CheckExit(after, [n] + rest))
  {
  }

  /** A successful step for the first NIC followed by the loop over the others ends as that loop does. */
  lemma CheckExitLater(before: seq<Event>, mid: seq<Event>, after: seq<Event>, host: Host, aborted: bool,
                       n: Nic, rest: seq<Nic>)
    requires before <= mid && mid <= after
    requires FailStop(before, mid, host, false)
    requires FailStop(mid, after, host, aborted && !CheckExit(after, rest))
    ensures FailStop(before, after, host, aborted && !CheckExit(after, [n] + rest))
  {
    FailStopCompose(before, mid, after, host, aborted && !CheckExit(after, rest));
  }

  /** The activate loop: NICs in order, stopping at the first exit(-1). */
  function ActivateAll(nics: seq<Nic>, st: State, host: Host): (r: Flow)
    ensures !r.Stop?
    ensures Appends(st.trace, r.st.trace)
    ensures Grows(st.bridges, r.st.bridges)
    ensures r.Continue? ==> Covered(nics, r.st.bridges)
    ensures FailStop(st.trace, r.st.trace, host, r.Abort? && !CheckExit(r.st.trace, nics))
    decreases |nics|
  {
    if |nics| == 0 then
      FailStopQuiet(st.trace, [], host);
      assert st.trace + [] == st.trace;
      Continue(st)
    else
      assert nics == [nics[0]] + nics[1..];
      match ActivateNic(st, nics[0], host)
      case Continue(s) =>
        var r := ActivateAll(nics[1..], s, host);
        AppendsTransitive(st.trace, s.trace, r.st.trace);
        GrowsTransitive(st.bridges, s.bridges, r.st.bridges);
        CheckExitLater(st.trace, s.trace, r.st.trace, host, r.Abort?, nics[0], nics[1..]);
        r
      case Abort(s) =>
        CheckExitFirst(st.trace, s.trace, host, nics[0], nics[1..]);
        Abort(s)
  }

  /** VLANDriver#activate: the lock is released only when the loop completes. */
  function Activate(nics: seq<Nic>, snapshot: Bridges, host: Host): (r: Invocation)
    ensures |r.trace| > 0 && r.trace[0] == Lock
    ensures r.exit == Returned(Some(0)) || r.exit == Exited(-1)
    ensures Lock !in r.trace[1..]
    ensures r.exit.Returned? <==> Unlock in r.trace
    ensures r.exit.Returned? ==> r.trace[|r.trace| - 1] == Unlock && Unlock !in r.trace[..|r.trace| - 1]
    ensures r.inventory.Some? && Grows(snapshot, r.inventory.value)
    ensures r.exit.Returned? ==> Covered(nics, r.inventory.value)
    // exit(-1) follows a failing command, or the proxy set-up of a NIC whose VLAN check failed
    ensures r.exit.Returned? ==> AllSucceed(r.trace, host)
    ensures r.exit == Exited(-1) ==>
              FailStop([], r.trace, host, true) || (CheckExit(r.trace, nics) && AllSucceed(r.trace, host))
  {
    var run := ActivateAll(nics, State(snapshot, [Lock]), host);
    assert run.st.trace == [Lock] + run.st.trace[1..];
    LockedRun(run.st.trace, host, run.Abort? && !CheckExit(run.st.trace, nics));
    if run.Abort? then Invocation(Exited(-1), run.st.trace, Some(run.st.bridges))
    else Invocation(Returned(Some(0)), Release(run.st.trace, host, false), Some(run.st.bridges))
  }

  // ---------------------------------------------------------------------------
  // deactivate
  // ---------------------------------------------------------------------------

  /**
   The members of the NIC's bridge that belong to other VMs: everything but
   the physical device, the NIC's tagging device and the "<bridge>b" companion.
   */
  function Guests(members: seq<string>, nic: Nic): (r: seq<string>)
    requires nic.phydev.Some?
    ensures forall m :: m in r <==>
              m in members && m != nic.phydev.value && m != DevOf(nic) && m != nic.bridge + "b"
  {
    Without(members, {nic.phydev.value, DevOf(nic), nic.bridge + "b"})
  }

  /** The NICs the deactivate loop works on: the one being detached, or all. */
  predicate Selected(nic: Nic, attachNicId: Option<string>)
  {
    attachNicId.None? || attachNicId.value == nic.nicId
  }

  /**
   Deletes the NIC's tagging device and then its bridge, dropping the device
   from the bridge's members and then the bridge from the inventory.
   */
  function RemoveVlanDevAndBridge(st: State, nic: Nic, host: Host): (r: Flow)
    requires nic.bridge in st.bridges
    ensures !r.Stop?
    ensures Appends(st.trace, r.st.trace)
    ensures r.Continue? ==> r.st.bridges == st.bridges - {nic.bridge}
    ensures r.Abort? ==> r.st.bridges.Keys == st.bridges.Keys
    ensures Reliable(host) ==>
              r.Continue? &&
              r.st.trace == st.trace + [Run(VlanDevDelete(DevOf(nic), nic)), Run(LinkDelete(nic.bridge))]
    ensures FailStop(st.trace, r.st.trace, host, r.Abort?)
  {
    var dev := DevOf(nic);
    var s1 :- Exec(st, VlanDevDelete(dev, nic), host);
    var s2 := s1.(bridges := s1.bridges[nic.bridge := Without(s1.bridges[nic.bridge], {dev})]);
    var s3 :- Exec(s2, LinkDelete(nic.bridge), host);
    Continue(s3.(bridges := s3.bridges - {nic.bridge}))
  }

  /** The body of the deactivate loop for one NIC. */
  function DeactivateNic(st: State, nic: Nic, attachNicId: Option<string>, host: Host): (r: Flow)
    ensures !r.Stop?
    ensures Appends(st.trace, r.st.trace)
    // skipped NICs: not the detached one, no physical device, or bridge already gone
    ensures !Selected(nic, attachNicId) || nic.phydev.None? || nic.bridge !in st.bridges ==> r == Continue(st)
    // the bridge is either left alone or deleted as a whole
    ensures r.Continue? ==> r.st.bridges == st.bridges || r.st.bridges == st.bridges - {nic.bridge}
    ensures r.Abort? ==> r.st.bridges.Keys == st.bridges.Keys
    ensures FailStop(st.trace, r.st.trace, host, r.Abort?)
  {
    if !Selected(nic, attachNicId) || nic.phydev.None? || nic.bridge !in st.bridges then
      FailStopQuiet(st.trace, [], host);
      assert st.trace + [] == st.trace;
      Continue(st)
    else
      var guests := Guests(st.bridges[nic.bridge], nic);
      var quiet := if |guests| < 1 then [Proxy(nic, Down)] else [];
      var s1 := st.(trace := st.trace + quiet);
      FailStopQuiet(st.trace, quiet, host);
      if nic.conf.keepEmptyBridge || |guests| > 0 then Continue(s1)
      else
        var r := RemoveVlanDevAndBridge(s1, nic, host);
        FailStopCompose(st.trace, s1.trace, r.st.trace, host, r.Abort?);
        r
  }

  /** The deactivate loop: NICs in order, stopping at the first exit(-1). */
  function DeactivateAll(nics: seq<Nic>, attachNicId: Option<string>, st: State, host: Host): (r: Flow)
    ensures !r.Stop?
    ensures Appends(st.trace, r.st.trace)
    ensures r.st.bridges.Keys <= st.bridges.Keys
    ensures r.Continue? ==> forall b :: b in r.st.bridges ==> r.st.bridges[b] == st.bridges[b]
    ensures FailStop(st.trace, r.st.trace, host, r.Abort?)
    decreases |nics|
  {
    if |nics| == 0 then Continue(st)
    else
      var s :- DeactivateNic(st, nics[0], attachNicId, host);
      var r := DeactivateAll(nics[1..], attachNicId, s, host);
      AppendsTransitive(st.trace, s.trace, r.st.trace);
      FailStopCompose(st.trace, s.trace, r.st.trace, host, r.Abort?);
      r
  }

  /**
   VLANDriver#deactivate. The lock is released on every way out (`ensure`),
   including exit(-1), which Ruby raises as an exception.
   */
  function Deactivate(vm: Vm, snapshot: Option<Bridges>, host: Host): (r: Invocation)
    ensures |r.trace| >= 2 && r.trace[0] == Lock && r.trace[|r.trace| - 1] == Unlock
    ensures Lock !in r.trace[1..] && Unlock !in r.trace[..|r.trace| - 1]
    ensures r.exit == Returned(Some(0)) || r.exit == Exited(-1)
    // exit(-1) exactly when a host command failed
    ensures r.exit == Exited(-1) <==> !AllSucceed(r.trace, host)
    // an attached NIC_ALIAS: return 0 before the inventory is read, with no effects
    ensures vm.aliasAttached ==> r == Invocation(Returned(Some(0)), [Lock, Unlock], None)
    // no inventory: return 0 with no effects
    ensures snapshot.None? ==> r == Invocation(Returned(Some(0)), [Lock, Unlock], None)
    // deactivate only ever removes whole bridges
    ensures r.inventory.Some? ==> snapshot.Some? && r.inventory.value.Keys <= snapshot.value.Keys
    ensures r.exit.Returned? && r.inventory.Some? ==>
              forall b :: b in r.inventory.value ==> r.inventory.value[b] == snapshot.value[b]
  {
    if vm.aliasAttached then Invocation(Returned(Some(0)), [Lock, Unlock], None)
    else if snapshot.None? then Invocation(Returned(Some(0)), [Lock, Unlock], None)
    else
      var run := DeactivateAll(vm.nics, vm.attachNicId, State(snapshot.value, [Lock]), host);
      var trace := Release(run.st.trace, host, run.Abort?);
      Invocation(if run.Abort? then Exited(-1) else Returned(Some(0)), trace, Some(run.st.bridges))
  }

  // ---------------------------------------------------------------------------
  // update
  // ---------------------------------------------------------------------------

  /** The change set restricted to the attributes that may be updated live. */
  function SupportedChanges(changes: map<string, Option<string>>): (r: map<string, Option<string>>)
    ensures r.Keys == changes.Keys * SupportedUpdate
    ensures forall k :: k in r ==> r[k] == changes[k]
  {
    map k | k in changes && k in SupportedUpdate :: changes[k]
  }

  /** A change to `key` with a non-nil value. */
  predicate Present(changes: map<string, Option<string>>, key: string)
  {
    key in changes && changes[key].Some?
  }

  /** nic.merge(changes): the NIC with the changed attributes overlaid. */
  function Overlay(nic: Nic, changes: map<string, Option<string>>): (r: Nic)
    // the attributes outside the change set's reach are kept
    ensures r.nicId == nic.nicId && r.networkId == nic.networkId && r.bridge == nic.bridge && r.conf == nic.conf
    // a changed attribute takes the change set's value, nil included
    ensures VlanIdKey in changes ==> r.vlanId == changes[VlanIdKey]
    ensures PhydevKey in changes ==> r.phydev == changes[PhydevKey]
    ensures MtuKey in changes ==> r.mtu == changes[MtuKey]
    // an attribute differs from the NIC's only where the change set names it
    ensures r.vlanId != nic.vlanId ==> VlanIdKey in changes
    ensures r.phydev != nic.phydev ==> PhydevKey in changes
    ensures r.mtu != nic.mtu ==> MtuKey in changes
    // the device the overlaid NIC names
    ensures VlanIdKey !in changes && PhydevKey !in changes ==> DevOf(r) == DevOf(nic)
    ensures VlanIdKey in changes && PhydevKey in changes ==> DevOf(r) == DevName(changes[PhydevKey], changes[VlanIdKey])
    // a change set without a supported attribute changes nothing
    ensures changes.Keys !! SupportedUpdate ==> r == nic
  {
    nic.(vlanId := if VlanIdKey in changes then changes[VlanIdKey] else nic.vlanId,
         phydev := if PhydevKey in changes then changes[PhydevKey] else nic.phydev,
         mtu := if MtuKey in changes then changes[MtuKey] else nic.mtu)
  }

  /** The NICs the update loop acts on: on the network, with a device, on an existing bridge. */
  predicate Eligible(nic: Nic, vnetId: int, bridges: Bridges)
  {
    nic.networkId == vnetId && nic.phydev.Some? && nic.bridge in bridges
  }

  /** Deletes the tagging device `owner` names if it is a member of the bridge. */
  function DeleteIfMember(st: State, owner: Nic, bridge: string, host: Host): (r: Flow)
    requires bridge in st.bridges
    ensures !r.Stop?
    ensures r.st.bridges == st.bridges
    ensures Appends(st.trace, r.st.trace)
    ensures FailStop(st.trace, r.st.trace, host, r.Abort?)
    ensures Reliable(host) ==>
              r == Continue(st.(trace := st.trace +
                   if DevOf(owner) in st.bridges[bridge] then [Run(VlanDevDelete(DevOf(owner), owner))] else []))
  {
    if DevOf(owner) in st.bridges[bridge] then Exec(st, VlanDevDelete(DevOf(owner), owner), host)
    else
      FailStopQuiet(st.trace, [], host);
      assert st.trace + [] == st.trace;
      Continue(st)
  }

  /**
   Replaces the tagging device after a vlan_id or phydev change: the device
   named from the NIC overlaid with the change set is deleted if it is in the
   bridge, then the device named from the NIC is created and attached.
   */
  function RecreateVlanDev(st: State, nic: Nic, changes: map<string, Option<string>>, host: Host): (r: Flow)
    requires nic.bridge in st.bridges
    ensures !r.Continue?
    ensures Appends(st.trace, r.st.trace)
    ensures r.st.bridges == st.bridges
    ensures Reliable(host) ==> r.Stop?
    ensures FailStop(st.trace, r.st.trace, host, r.Abort?)
  {
    var prior := Overlay(nic, changes);
    match DeleteIfMember(st, prior, nic.bridge, host)
    case Continue(s1) =>
      var r := CreateAndAttach(s1, nic, host);
      FailStopCompose(st.trace, s1.trace, r.st.trace, host, r.Abort?);
      AppendsTransitive(st.trace, s1.trace, r.st.trace);
      if r.Abort? then r else Stop(r.st)
    case Abort(s1) => Abort(s1)
  }

  /**
   The body of the update loop for one NIC. The change set holds the values
   from before the change, so the overlaid NIC names the old device.
   */
  function UpdateNic(st: State, nic: Nic, changes: map<string, Option<string>>, vnetId: int, host: Host)
    : (r: Flow)
    ensures Appends(st.trace, r.st.trace)
    // the inventory is never changed
    ensures r.st.bridges == st.bridges
    ensures !Eligible(nic, vnetId, st.bridges) ==> r == Continue(st)
    // an eligible NIC ends the loop
    ensures Eligible(nic, vnetId, st.bridges) ==> !r.Continue?
    ensures Eligible(nic, vnetId, st.bridges) && Reliable(host) ==> r.Stop?
    // without a vlan_id or phydev change no device is created or deleted
    ensures !Present(changes, VlanIdKey) && !Present(changes, PhydevKey) ==>
              forall e :: e in r.st.trace[|st.trace|..] ==> e.Run? && e.cmd == LinkMtu(DevOf(nic), nic.mtu)
    ensures Eligible(nic, vnetId, st.bridges) && !Present(changes, VlanIdKey) && !Present(changes, PhydevKey) ==>
              (Run(LinkMtu(DevOf(nic), nic.mtu)) in r.st.trace[|st.trace|..] <==> Present(changes, MtuKey))
    ensures FailStop(st.trace, r.st.trace, host, r.Abort?)
  {
    if !Eligible(nic, vnetId, st.bridges) then Continue(st)
    else if Present(changes, VlanIdKey) || Present(changes, PhydevKey) then
      RecreateVlanDev(st, nic, changes, host)
    else if Present(changes, MtuKey) then
      var s1 :- Exec(st, LinkMtu(DevOf(nic), nic.mtu), host);
      Stop(s1)
    else Stop(st)
  }

  /** The update loop: NICs in order, up to the first eligible one. */
  function UpdateAll(nics: seq<Nic>, changes: map<string, Option<string>>, vnetId: int, st: State, host: Host)
    : (r: Flow)
    ensures Appends(st.trace, r.st.trace)
    ensures r.st.bridges == st.bridges
    ensures r.Continue? <==> forall n :: n in nics ==> !Eligible(n, vnetId, st.bridges)
    ensures r.Continue? ==> r.st == st
    ensures FailStop(st.trace, r.st.trace, host, r.Abort?)
    decreases |nics|
  {
    if |nics| == 0 then Continue(st)
    else
      var s :- UpdateNic(st, nics[0], changes, vnetId, host);
      assert nics == [nics[0]] + nics[1..];
      UpdateAll(nics[1..], changes, vnetId, s, host)
  }

  /**
   The update loop over the inventory that was read, under the lock, and how
   the call ends: 0 when no NIC is eligible, nil after acting on the first
   eligible one, exit(-1) when a command failed.
   */
  function UpdateLocked(nics: seq<Nic>, changes: map<string, Option<string>>, vnetId: int, bridges: Bridges, host: Host)
    : (r: Invocation)
    ensures |r.trace| >= 2 && r.trace[0] == Lock && r.trace[|r.trace| - 1] == Unlock
    ensures Lock !in r.trace[1..] && Unlock !in r.trace[..|r.trace| - 1]
    ensures r.inventory == Some(bridges)
    ensures r.exit == Returned(None) || r.exit == Returned(Some(0)) || r.exit == Exited(-1)
    ensures r.exit == Exited(-1) <==> !AllSucceed(r.trace, host)
    ensures r.exit == Returned(Some(0)) <==> forall n :: n in nics ==> !Eligible(n, vnetId, bridges)
    ensures r.exit == Returned(Some(0)) ==> r.trace == [Lock, Unlock]
    // after acting on a NIC: nil, with the loop's events and the lock released
    ensures var run := UpdateAll(nics, changes, vnetId, State(bridges, [Lock]), host);
            run.Stop? ==> r == Invocation(Returned(None), run.st.trace + [Unlock], Some(bridges))
  {
    var run := UpdateAll(nics, changes, vnetId, State(bridges, [Lock]), host);
    assert run.Continue? ==> run.st.trace == [Lock];
    var trace := Release(run.st.trace, host, run.Abort?);
    var exit := match run
      case Continue(_) => Returned(Some(0))
      case Stop(_) => Returned(None)
      case Abort(_) => Exited(-1);
    Invocation(exit, trace, Some(run.st.bridges))
  }

  /**
   VLANDriver#update(vnet_id). Returns 0 when nothing applies and nil after
   the first eligible NIC; the lock is released on every way out.
   */
  function Update(vm: Vm, vnetId: int, snapshot: Option<Bridges>, host: Host): (r: Invocation)
    ensures |r.trace| >= 2 && r.trace[0] == Lock && r.trace[|r.trace| - 1] == Unlock
    ensures Lock !in r.trace[1..] && Unlock !in r.trace[..|r.trace| - 1]
    // no supported change: return 0 before the inventory is read, with no effects
    ensures SupportedChanges(vm.changes) == map[] ==> r == Invocation(Returned(Some(0)), [Lock, Unlock], None)
    // no inventory: return 0 with no effects
    ensures snapshot.None? ==> r == Invocation(Returned(Some(0)), [Lock, Unlock], None)
    // the inventory is never changed
    ensures r.inventory.Some? ==> snapshot.Some? && r.inventory.value == snapshot.value
    // 0 when no NIC is eligible, nil after acting on one, -1 when a command failed
    ensures r.exit == Returned(None) || r.exit == Returned(Some(0)) || r.exit == Exited(-1)
    ensures r.exit == Exited(-1) <==> !AllSucceed(r.trace, host)
    ensures (r.inventory.Some? && (exists n :: n in vm.nics && Eligible(n, vnetId, snapshot.value)) &&
             AllSucceed(r.trace, host)) ==> r.exit == Returned(None)
    ensures r.exit == Returned(Some(0)) && r.inventory.Some? ==> r.trace == [Lock, Unlock]
    ensures r.inventory.Some? ==>
              (r.exit == Returned(Some(0)) <==> forall n :: n in vm.nics ==> !Eligible(n, vnetId, snapshot.value))
  {
    var changes := SupportedChanges(vm.changes);
    if changes == map[] then Invocation(Returned(Some(0)), [Lock, Unlock], None)
    else if snapshot.None? then Invocation(Returned(Some(0)), [Lock, Unlock], None)
    else UpdateLocked(vm.nics, changes, vnetId, snapshot.value, host)
  }

}
